=== FILE: README.md ===
# diyHue registry — a Dafny model

This project models the decision logic of the `Registry` class of the diyHue
bridge emulator (`huebridgeemulator/registry.py`). The registry is the
in-memory store of a virtual Hue bridge. It holds lights, groups, scenes and
sensors, the bridge config, and the staging map of newly discovered lights.
It mirrors all of them to one JSON document on disk.

The model is functional. A `Registry` datatype has one field per attribute of
the Python object, except `filepath` and `_mac` (see "Left out"). Alarm config
and link button are optional: they are absent while they still hold the plain
`{}` that `__init__` assigns. Every operation is a pure function of its
inputs, returning a new value or a `Result`. For `next_free_id`, the config
merge and the light loop of `load`, a method that loops as the Python code does
is proved equal to that function. The modules are:

- `Values`: the JSON values a document is made of, and the `raw[key]` lookups `load` performs.
- `Entities`: the three light classes, selected by the `protocol` tag (`yeelight`, `hue`, `tplink`), plus groups, scenes, sensors and the registry record.
- `Numerals`: `int(key)` and `str(n)` for collection keys.
- `Allocator`: `next_free_id`.
- `BridgeIds`: the bridge id derived from the MAC address in `_startup`.
- `ConfigMerge`: the config loop of `load`.
- `LightCodec`: the protocol-dispatched light reconstruction of `load`, and the light split of `serialize`.
- `RegistryCodec`: `load` of an existing file, and `serialize`.
- `SensorsState`: `generate_sensors_state`.
- `Staging`: `add_new_light`, `get_new_lights` and `clear_new_lights`.
- `Persistence`: `save` and `backup` over a file system modelled as a map from path to document.
- `Startup`: `_startup` and `set_filepath`, with the host's network, timezone and clock readings as parameters.

Four behaviours of `registry.py` are easy to misread; the model follows the
code:

- The config merge keeps persisted keys that the defaults lack (`ConfigMerge.MergeKeepsFileOnlyKeys`).
- `load` never reads `resourcelinks`, `rules` or `schedules`, although `serialize` writes them. A save/load round trip therefore restores a registry only when those three are empty (`RegistryCodec.ReloadRestoresRegistry`, `RegistryCodec.ResourceLinksNotReloaded`).
- The document's `lights` object is only consulted when `lights_address` has an entry. Every `lights_address` entry needs a matching `lights` entry, even one whose tag is unknown and is then skipped.
- `next_free_id` works over the keys present now, so an id freed by deleting the entry with the largest key is handed out again (`Allocator.IdReusedAfterDeletion`).

Every failure `load` can raise is one `DecodeError`. This covers a missing
key, a value of the wrong shape, and a document that is not an object.
`next_free_id` raises `BadElementType` for a name that is not a collection, and
`InvalidIndex` when a key is not an integer. `MissingMethod` is a method called
on a value that lacks it: `serialize` on an alarm config or link button that is
still a plain dict, and `keys` on a sensor state that is not an object.

## Model

| member | source | states |
|---|---|---|
| `Numerals.ParseInt` | huebridgeemulator/registry.py:225 | `int(key)` succeeds exactly on an optionally signed, non-empty run of decimal digits, and digit-led keys are non-negative |
| `Numerals.ParseIntDigits` | huebridgeemulator/registry.py:225 | an unsigned run of digits reads as its decimal value |
| `Numerals.ParseIntLeadingZero` | huebridgeemulator/registry.py:225 | `int("0" + s) == int(s)` for a run of digits: a leading zero does not change the value |
| `Numerals.ParseIntPlus` | huebridgeemulator/registry.py:225 | `int("+" + s) == int(s)` for a run of digits |
| `Numerals.ParseIntMinus` | huebridgeemulator/registry.py:225 | `int("-" + s) == -int(s)` for a run of digits |
| `Numerals.NatToString` | huebridgeemulator/registry.py:230 | `str(n)` of a natural number is a non-empty digit string whose first digit is `0` only when the whole string is "0" |
| `Numerals.IntToString` | huebridgeemulator/registry.py:230 | `str(n)` starts with a digit exactly when n is non-negative; after the sign, if any, comes a non-empty digit string with no leading zero unless it is "0" |
| `Numerals.ParseNatToString` | huebridgeemulator/registry.py:225-230 | parsing the digits `str` writes for a natural number gives that number back |
| `Numerals.IntRoundTrip` | huebridgeemulator/registry.py:225-230 | `int(str(n)) == n` for every integer, so the allocated id is read back as the number it was computed from |
| `Numerals.IntToStringInjective` | huebridgeemulator/registry.py:230 | distinct numbers are written as distinct ids |
| `Allocator.CollectionKeys` | huebridgeemulator/registry.py:220-223 | a name resolves to a key set exactly when it is one of the registry's nine string-keyed dict attributes, and each of those names resolves to the keys of the attribute of that name |
| `Allocator.MaxKeyValue` | huebridgeemulator/registry.py:225 | `max(int(k) for k in keys)` is the value of some key and at least the value of every key |
| `Allocator.AllocatedId` | huebridgeemulator/registry.py:224-230 | "1" for an empty collection; an error exactly when some key is not an integer; otherwise a canonical decimal string whose value exceeds every key's, equals some key's plus one, and collides with no existing key |
| `Allocator.NextFreeId` | huebridgeemulator/registry.py:218-230 | an unknown element name raises `BadElementType`; for a collection, the one-pass maximum over its keys yields exactly the allocation rule |
| `Allocator.IdReusedAfterDeletion` | huebridgeemulator/registry.py:224-230 | keys {3, 7} give "8"; after 7 is removed the next id is "4", below the one handed out before |
| `BridgeIds.StripColons` | huebridgeemulator/registry.py:79-81 | removing the separators leaves no `:`, keeps every other character with its multiplicity, and leaves a separator-free string unchanged |
| `BridgeIds.StripColonsAppend` | huebridgeemulator/registry.py:79-81 | stripping a concatenation strips each part and keeps them in order |
| `BridgeIds.StripColonsChar` | huebridgeemulator/registry.py:79-81 | a single character is dropped exactly when it is `:` |
| `BridgeIds.StripColonsKeepsOrder` | huebridgeemulator/registry.py:79-81 | "a:b" becomes "ab": the remaining characters keep their order |
| `BridgeIds.UpperChar` | huebridgeemulator/registry.py:81 | upper-casing maps each letter a-z to the capital at the same place in the alphabet and changes nothing else |
| `BridgeIds.Upper` | huebridgeemulator/registry.py:81 | upper-casing a string maps each character in place and keeps the length |
| `BridgeIds.Splice` | huebridgeemulator/registry.py:79-81 | `s[:6] + "FFFE" + s[6:]` is four characters longer than s, holds the marker right after the first six characters (or after all of them when fewer), and keeps every character of s in order around it |
| `BridgeIds.BridgeId` | huebridgeemulator/registry.py:79-81 | the id is four characters longer than the stripped MAC; it holds `FFFE` right after the first six characters (or after all of them when fewer); every other position is the upper-cased MAC character; it has no `:` and no lower-case letter |
| `BridgeIds.BridgeIdMinusMarker` | huebridgeemulator/registry.py:79-81 | cutting the four marker characters back out of the id gives exactly the upper-cased, separator-free MAC |
| `BridgeIds.BridgeIdSplicesUpper` | huebridgeemulator/registry.py:79-81 | the id equals the marker spliced into the upper-cased, separator-free MAC: upper-casing after the splice is the same as before it |
| `BridgeIds.BridgeIdIgnoresSeparators` | huebridgeemulator/registry.py:79-81 | two MAC spellings that differ only in separators or letter case give the same bridge id |
| `ConfigMerge.MergeConfig` | huebridgeemulator/registry.py:119-120 | after the merge every persisted key holds its persisted value, every other key keeps its prior value, and no key is removed |
| `ConfigMerge.MergeConfigLoop` | huebridgeemulator/registry.py:119-120 | the key-by-key loop computes the merge |
| `ConfigMerge.MergeIdempotent` | huebridgeemulator/registry.py:119-120 | merging the same file twice equals merging it once |
| `ConfigMerge.MergeKeepsFileOnlyKeys` | huebridgeemulator/registry.py:119-120 | defaults {a:1, b:2} and file {b:9, c:3} give {a:1, b:9, c:3}: the file-only key is kept |
| `Entities.ProtocolOf` | huebridgeemulator/registry.py:132-146 | a tag selects a light class exactly when it is the string `yeelight`, `hue` or `tplink`, and the class selected is the one of that name |
| `Entities.ProtocolTagRoundTrip` | huebridgeemulator/registry.py:132-146 | each light class's own tag selects that class again |
| `Entities.Init` | huebridgeemulator/registry.py:37-63 | a new registry has a copy of the base config, an empty `deconz`, empty collections and staging map, and alarm config and link button still plain dicts |
| `LightCodec.DecodeLight` | huebridgeemulator/registry.py:129-146 | one loop step raises exactly when the `lights` entry for the index is missing, the address has no tag, or a known tag's light has no `state`; otherwise it skips unknown tags and builds a light of the tagged class with that index and address |
| `LightCodec.LoadLights` | huebridgeemulator/registry.py:129-146 | the loop raises exactly when some entry does; otherwise the indices with a known tag hold the tagged class, their own address and fields, every other prior light is unchanged, and no other index appears |
| `LightCodec.ReconstructLights` | huebridgeemulator/registry.py:129-146 | the step-by-step loop over `lights_address` computes the same result as the whole-map definition, failing or not |
| `LightCodec.SerializeLights` | huebridgeemulator/registry.py:177-183 | `lights` and `lights_address` get the same index set; each address goes to `lights_address`; no `lights` entry keeps an `address` key |
| `LightCodec.LoadLightsWellFormed` | huebridgeemulator/registry.py:129-146 | every light `load` builds has its own index, a tag naming its class, a `state`, and no embedded address |
| `LightCodec.LightsRoundTrip` | huebridgeemulator/registry.py:129-183 | reconstructing from the split `serialize` writes gives back the same index set, class, address and fields for every well-formed light |
| `LightCodec.UnknownProtocolSkipped` | huebridgeemulator/registry.py:129-146 | an entry with an unknown tag leaves its index without a light, and the result equals the one without that entry |
| `RegistryCodec.DecodeGroups` | huebridgeemulator/registry.py:124-127 | the group loop raises exactly when some group is not an object with `action` and `state`; otherwise each group keeps its index and fields |
| `RegistryCodec.DecodeScenes` | huebridgeemulator/registry.py:150-151 | every persisted scene becomes a scene under the same index, carrying that index |
| `RegistryCodec.DecodeSensors` | huebridgeemulator/registry.py:154-155 | every persisted sensor becomes a sensor under the same index |
| `RegistryCodec.Load` | huebridgeemulator/registry.py:114-155 | a load succeeds exactly when the document is an object with every required top-level key, the five collections it iterates are objects, and the group and light loops succeed; then alarm config, deconz and link button are the file's, the config is the merge, groups, scenes and sensors are the decoded entries over the prior ones, the lights are the reconstructed ones, and capabilities, `resourcelinks`, `rules`, `schedules` and the staging map are untouched |
| `RegistryCodec.EncodeGroups` | huebridgeemulator/registry.py:173-175 | `groups` in the document has the registry's group indices, each holding that group's fields as an object |
| `RegistryCodec.EncodeScenes` | huebridgeemulator/registry.py:191-193 | `scenes` in the document has the registry's scene indices, each holding that scene's JSON |
| `RegistryCodec.EncodeSensors` | huebridgeemulator/registry.py:197-199 | `sensors` in the document has the registry's sensor indices, each holding that sensor's JSON |
| `RegistryCodec.Serialize` | huebridgeemulator/registry.py:157-201 | serialization raises exactly when alarm config or link button is still a plain dict, naming the alarm config first; otherwise the document has the thirteen top-level keys, `lights` and `lights_address` have the registry's light indices, and no light entry carries an address |
| `RegistryCodec.InitialRegistryNotSerializable` | huebridgeemulator/registry.py:163-165 | a registry fresh from `__init__` cannot be serialized: the alarm config has no `serialize` |
| `RegistryCodec.SerializedParts` | huebridgeemulator/registry.py:163-199 | where each of the thirteen parts of the registry sits in the document, including the capabilities and the verbatim `resourcelinks`, `rules` and `schedules` |
| `RegistryCodec.GroupsRoundTrip` | huebridgeemulator/registry.py:124-127 | decoding the encoded groups of well-formed groups gives them back |
| `RegistryCodec.ScenesRoundTrip` | huebridgeemulator/registry.py:150-151 | decoding the encoded scenes gives back every scene that carries its own index |
| `RegistryCodec.SensorsRoundTrip` | huebridgeemulator/registry.py:154-155 | decoding the encoded sensors gives them back |
| `RegistryCodec.LoadPreservesWellFormed` | huebridgeemulator/registry.py:114-155 | a successful load keeps a well-formed registry well-formed |
| `RegistryCodec.LoadSerialize` | huebridgeemulator/registry.py:114-201 | loading a serialized well-formed registry succeeds and restores every field `load` reads, merged over the target's own collections and config |
| `RegistryCodec.ReloadRestoresRegistry` | huebridgeemulator/registry.py:114-201 | a new registry loading the document of a well-formed registry gets it back exactly, when its config has every base key and it has no resource links, rules, schedules or staged lights |
| `RegistryCodec.ResourceLinksNotReloaded` | huebridgeemulator/registry.py:186-195 | the document holds the saved `resourcelinks`, `rules` and `schedules`, yet loading it keeps the target's own |
| `SensorsState.Snapshot` | huebridgeemulator/registry.py:236-239 | a snapshot is `{"state": …}` holding exactly the watched keys the sensor's state has, each mapped to the fixed 2017-01-01T00:00:00 timestamp |
| `SensorsState.SensorState` | huebridgeemulator/registry.py:235-237 | a state is available to `keys()` exactly when the sensor has the attribute and it is an object |
| `SensorsState.GenerateSensorsState` | huebridgeemulator/registry.py:232-240 | as written: the loop raises exactly when a sensor it reaches has a state that is not an object; otherwise every sensor with a state whose index is not a key gets a snapshot under its object, entries under indices and all other entries are unchanged, and no index key is ever added |
| `SensorsState.NonObjectStateRaises` | huebridgeemulator/registry.py:235-237 | a sensor whose state is a string makes the loop raise in `keys()` |
| `SensorsState.SensorsStateKeyedByObject` | huebridgeemulator/registry.py:235-236 | for one sensor with a state, the result lacks its index, and a second call overwrites what was stored under the sensor |
| `SensorsState.GenerateSensorsStateByIndex` | huebridgeemulator/registry.py:232-240 | keyed by index: it raises exactly when the as-written loop does; otherwise every prior entry is unchanged and every sensor with a state ends up with an entry under its index |
| `SensorsState.ByIndexFixedPoint` | huebridgeemulator/registry.py:232-240 | keyed by index, once every sensor with a state has an entry the loop changes nothing |
| `SensorsState.SensorsStateByIndexIdempotent` | huebridgeemulator/registry.py:232-240 | keyed by index, a second call changes nothing |
| `Staging.AddNewLight` | huebridgeemulator/registry.py:242-245 | the light's index maps to `{name}` (unless the index is `lastscan`), `lastscan` holds the given time, every other entry is kept, and nothing outside the staging map changes |
| `Staging.ClearNewLights` | huebridgeemulator/registry.py:251-253 | the staging map is empty and nothing else changes |
| `Staging.TwoDiscoveriesAccumulate` | huebridgeemulator/registry.py:242-249 | two discoveries of different lights leave both staged, and `lastscan` holds the second one's time |
| `Staging.ClearThenAdd` | huebridgeemulator/registry.py:242-253 | after a clear, one discovery stages exactly that light and its scan time |
| `Persistence.Save` | huebridgeemulator/registry.py:203-210 | saving raises exactly when `serialize` does, with its error; otherwise the file at the path holds the serialized registry and no other file changes |
| `Persistence.BackupPath` | huebridgeemulator/registry.py:214-215 | the backup name is the registry path, `-backup-`, the date and `.json`, in that order |
| `Persistence.Backup` | huebridgeemulator/registry.py:212-216 | a backup raises exactly when `serialize` does; otherwise it adds only the dated file, holding the serialized registry, and every other file, the registry file included, keeps its contents |
| `Persistence.BackupPathInjective` | huebridgeemulator/registry.py:214-215 | two backup names of one file coincide exactly when the dates do |
| `Persistence.SameDayBackupOverwrites` | huebridgeemulator/registry.py:212-216 | two backups on one day give the same files as the second backup alone: the first backup is overwritten |
| `Persistence.DifferentDayBackupsKept` | huebridgeemulator/registry.py:212-216 | backups on two different days are both kept |
| `Persistence.InitialRegistryCannotSave` | huebridgeemulator/registry.py:203-205 | saving a registry no load has touched raises in `serialize` on the alarm config |
| `Startup.RunStartup` | huebridgeemulator/registry.py:69-84 | startup writes the address, netmask, gateway, MAC, MAC-derived bridge id, timezone and both clock readings into the config; every other entry and field is kept |
| `Startup.SetFilepath` | huebridgeemulator/registry.py:86-92 | setting the path succeeds exactly when the load does, and then yields exactly the loaded registry with `_startup` applied: the loaded lights, and the bridge id from the MAC |
| `Startup.StartupOverridesPersistedBridgeId` | huebridgeemulator/registry.py:79-120 | after load and startup the bridge id is the MAC-derived one whatever the file held, while the other persisted config keys keep their file values |

## Findings

| source | as written | input that shows it | evidently intended | confidence | as-written member | corrected member |
|---|---|---|---|---|---|---|
| huebridgeemulator/registry.py:235-236 | the guard tests whether the sensor's index is a key, but the snapshot is inserted under the sensor object | one sensor "1" whose state has `presence`, empty accumulator: the result has no entry "1", and a second call overwrites the entry under the sensor | insert the snapshot under the index, so the guard skips sensors already reported | not executed; high, assuming `Sensor` hashes by identity | `SensorsState.GenerateSensorsState`, `SensorsState.SensorsStateKeyedByObject` | `SensorsState.GenerateSensorsStateByIndex`, `SensorsState.SensorsStateByIndexIdempotent` |

## Left out

- The branch of `load` that finds no file (lines 96-113) is not modelled. That branch bootstraps defaults and a daylight sensor, aliases the shared base config, saves, and then falls through to re-read the file it just wrote. `RegistryCodec.Load` models the existing-file path only.
- Network interface, timezone and clock lookups are not modelled. `netifaces`, `get_mac`, `tzlocal` and `datetime.now`/`utcnow` are foreign calls; their results are parameters of `Startup.RunStartup`, `Startup.SetFilepath`, `Persistence.Backup` and `Staging.AddNewLight` (whose `now` stands for `datetime.now()` at line 245).
- File I/O and the JSON text format are not modelled. This covers `open`, `json.load`, `json.dump`, key sorting and indentation. A file holds the document value itself.
- `Values.Value` has integer numbers only. JSON floating point numbers are not modelled.
- The classes `LightState`, the `*LightAddress` and `*Light` classes, `Group`, `ActionGroup`, `StateGroup`, `Scene`, `Sensor`, `AlarmConfig` and `LinkButton` live in files that are not part of this model. Each is represented by the raw JSON it is built from, and its `serialize` by returning that JSON. Any validation their constructors do is not modelled.
- A sensor's `state` attribute is taken to be the value under its record's `state` key. A record without one counts as a sensor without the attribute.
- SensorsState.GenerateSensorsState: the `Sensor` class is taken to hash by identity, the default for a Python class without `__eq__`. `SensorKey(i)` stands for the object registered under `i`. Its file is not part of this model; a `Sensor` that is not hashable would make line 236 raise `TypeError`, which is not modelled. Because a key names an index rather than an object, the model cannot hold an entry under a sensor object that is no longer registered, nor one object registered under two indices. In particular, `load` builds a fresh `Sensor` for every index (line 155): an accumulator kept from before a reload keeps its old entry in Python and gains a second one under the new object, while the model overwrites `SensorKey(i)`.
- `load` raises after it has already updated some attributes, and `generate_sensors_state` after it has already added entries to the accumulator. Those partial updates are not modelled: a failed call yields only the error.
- The `filepath` attribute is not modelled. `Persistence.Save` and `Persistence.Backup` take the path explicitly. So `save()` falling back to `self.filepath` (lines 207-208) is not modelled, nor is `backup` formatting `self.filepath` into its name (line 214), including the name `None-backup-….json` when no path was set. `set_filepath(None)` (line 90), which only clears the path, is not modelled either; `Startup.SetFilepath` covers a path to an existing file.
- `Entities.Init` copies the base config as a value. `copy.copy` (line 43) is shallow, so in Python nested config values stay shared with the class-level `_base_config`; nothing in `registry.py` mutates a nested value, so the sharing is not modelled.
- The `registry_logger.error` call that `next_free_id` makes before it raises (line 221) is not modelled; logging has no effect on the result.
- `get_lights`, `get_json_lights`, the `print` calls, the module-level singleton and the unused `_mac` attribute are not modelled.
- Locking and concurrent access are not modelled. `registry.py` has none.
- `Staging.GetNewLights` returns the staging map as a value. It has no contract of its own and is used by the staging lemmas. In Python it returns the live dict (line 249), so a caller's reference sees later `add_new_light` and `clear_new_lights` calls change it in place (lines 244-245, 253). That sharing is not modelled: a caller of the model keeps the map as it was.
- Allocator.NextFreeId: for a name outside the nine collections it always raises `BadElementType`, while `registry.py` can also fail differently or return "1" for such a name (next line).
- Allocator.CollectionKeys: any name other than the nine string-keyed dict attributes is reported as `BadElementType`. In `registry.py`, `hasattr` accepts every attribute name, including `filepath`, `alarm_config`, `deconz`, `capabilities` and the method names. For those names it then fails in `.keys()` or `int()`, or returns "1" when the attribute is empty or `None`.
- Numerals.ParseInt accepts only an optional sign followed by ASCII digits. Python's `int()` also accepts surrounding whitespace, underscores between digits and non-ASCII digits.
- BridgeIds.UpperChar upper-cases only the ASCII letters a-z. Python's `str.upper()` also maps other Unicode letters, which a MAC address does not contain.

=== FILE: allocator.dfy ===
/**
 * `next_free_id`: the next index of a named collection is one more than the
 * largest existing numeric key, or "1" for an empty collection.
 */
module Allocator {
  import opened Results
  import opened Numerals
  import opened Entities
  import opened SetFacts

  /** The keys of the registry attribute called `element`, when it is a string-keyed collection. */
  function CollectionKeys(reg: Registry, element: string): (r: Option<set<string>>)
    ensures r.Some? <==> element in {"groups", "lights", "scenes", "sensors", "resourcelinks",
                                     "rules", "schedules", "config", "_new_lights"}
    ensures element == "groups" ==> r == Some(reg.groups.Keys)
    ensures element == "lights" ==> r == Some(reg.lights.Keys)
    ensures element == "scenes" ==> r == Some(reg.scenes.Keys)
    ensures element == "sensors" ==> r == Some(reg.sensors.Keys)
    ensures element == "resourcelinks" ==> r == Some(reg.resourcelinks.Keys)
    ensures element == "rules" ==> r == Some(reg.rules.Keys)
    ensures element == "schedules" ==> r == Some(reg.schedules.Keys)
    ensures element == "config" ==> r == Some(reg.config.Keys)
    ensures element == "_new_lights" ==> r == Some(reg.newLights.Keys)
  {
    match element
    case "groups" => Some(reg.groups.Keys)
    case "lights" => Some(reg.lights.Keys)
    case "scenes" => Some(reg.scenes.Keys)
    case "sensors" => Some(reg.sensors.Keys)
    case "resourcelinks" => Some(reg.resourcelinks.Keys)
    case "rules" => Some(reg.rules.Keys)
    case "schedules" => Some(reg.schedules.Keys)
    case "config" => Some(reg.config.Keys)
    case "_new_lights" => Some(reg.newLights.Keys)
    case _ => None
  }

  ghost predicate AllNumeric(keys: set<string>) {
    forall k :: k in keys ==> ParseInt(k).Some?
  }

  /** The largest numeric value among a non-empty set of numeric keys. */
  ghost function MaxKeyValue(keys: set<string>): (m: int)
    requires keys != {} && AllNumeric(keys)
    ensures exists k :: k in keys && ParseInt(k).value == m
    ensures forall k :: k in keys ==> ParseInt(k).value <= m
  {
    NonEmptyHasElement(keys);
    var x :| x in keys;
    if keys == {x} then ParseInt(x).value
    else
      var m' := MaxKeyValue(keys - {x});
      assert forall k :: k in keys ==> k == x || k in keys - {x};
      if ParseInt(x).value < m' then m' else ParseInt(x).value
  }

  /**
   * The allocation rule: "1" for no keys, an error when some key is not an
   * integer, otherwise the decimal string of the largest key plus one.
   */
  ghost function AllocatedId(keys: set<string>): (r: Result<string>)
    ensures keys == {} ==> r == Ok("1")
    ensures r.Err? <==> !AllNumeric(keys)
    ensures r.Err? ==> r.error == InvalidIndex
    ensures r.Ok? ==> ParseInt(r.value).Some? && r.value == IntToString(ParseInt(r.value).value)
    ensures r.Ok? ==> forall k :: k in keys ==> ParseInt(k).value < ParseInt(r.value).value
    ensures r.Ok? ==> r.value !in keys
    ensures r.Ok? && keys != {} ==>
      exists k :: k in keys && ParseInt(k).value + 1 == ParseInt(r.value).value
  {
    if keys == {} then Ok("1")
    else if !AllNumeric(keys) then Err(InvalidIndex)
    else
      var m := MaxKeyValue(keys);
      IntRoundTrip(m + 1);
      Ok(IntToString(m + 1))
  }

  /** `next_free_id(element)`, computed by one pass over the keys as `registry.py` does. */
  method NextFreeId(reg: Registry, element: string) returns (r: Result<string>)
    ensures CollectionKeys(reg, element).None? ==> r == Err(BadElementType(element))
    ensures CollectionKeys(reg, element).Some? ==> r == AllocatedId(CollectionKeys(reg, element).value)
  {
    var found := CollectionKeys(reg, element);
    if found.None? {
      return Err(BadElementType(element));
    }
    var keys := found.value;
    if keys == {} {
      return Ok("1");
    }
    var todo := keys;
    NonEmptyHasElement(todo);
    var k0 :| k0 in todo;
    var first := ParseInt(k0);
    if first.None? {
      return Err(InvalidIndex);
    }
    var last := first.value;
    todo := todo - {k0};
    while todo != {}
      invariant todo <= keys && k0 in keys - todo
      invariant forall k :: k in keys - todo ==> ParseInt(k).Some? && ParseInt(k).value <= last
      invariant exists k :: k in keys - todo && ParseInt(k) == Some(last)
      decreases todo
    {
      NonEmptyHasElement(todo);
      var k :| k in todo;
      var v := ParseInt(k);
      if v.None? {
        return Err(InvalidIndex);
      }
      if last < v.value {
        last := v.value;
      }
      todo := todo - {k};
    }
    assert last == MaxKeyValue(keys);
    return Ok(IntToString(last + 1));
  }

  /**
   * Allocation is over the keys present now: once the entry holding the
   * largest key is removed, the next id is lower than before, so an id
   * can be handed out twice over the registry's lifetime.
   */
  lemma IdReusedAfterDeletion()
    ensures AllocatedId({"3", "7"}) == Ok("8")
    ensures AllocatedId({"3"}) == Ok("4")
  {
    var keys := {"3", "7"};
    assert ParseInt("3") == Some(3) && ParseInt("7") == Some(7);
    var r := AllocatedId(keys);
    var k :| k in keys && ParseInt(k).value + 1 == ParseInt(r.value).value;
    assert ParseInt(r.value) == Some(8);
    assert IntToString(8) == "8";
    var r' := AllocatedId({"3"});
    assert ParseInt(r'.value) == Some(4);
    assert IntToString(4) == "4";
  }
}

=== FILE: bridge_id.dfy ===
/**
 * The bridge id derived from the MAC address in `_startup`: separators
 * removed, the marker "FFFE" spliced in after the sixth character, all
 * upper-cased.
 */
module BridgeIds {

  const Marker: string := "FFFE"

  /** `mac.replace(":", "")`. */
  function StripColons(mac: string): (s: string)
    ensures ':' !in s
    ensures |s| <= |mac|
    ensures ':' !in mac ==> s == mac
    ensures forall c :: c != ':' ==> multiset(s)[c] == multiset(mac)[c]
  {
    if |mac| == 0 then ""
    else
      assert mac == [mac[0]] + mac[1..];
      (if mac[0] == ':' then "" else [mac[0]]) + StripColons(mac[1..])
  }

  /** Separators are removed piecewise: the rest keeps its order. */
  lemma {:induction false} StripColonsAppend(a: string, b: string)
    ensures StripColons(a + b) == StripColons(a) + StripColons(b)
    decreases |a|
  {
    if |a| == 0 {
      assert a + b == b;
    } else {
      assert (a + b)[1..] == a[1..] + b;
      StripColonsAppend(a[1..], b);
    }
  }

  /** A single character is kept exactly when it is not a separator. */
  lemma StripColonsChar(c: char)
    ensures StripColons([c]) == if c == ':' then "" else [c]
  {
  }

  /** Stripping keeps the other characters in order: "a:b" becomes "ab", never "ba". */
  lemma StripColonsKeepsOrder()
    ensures StripColons("a:b") == "ab"
  {
    assert "a:b" == ['a'] + [':'] + ['b'];
    StripColonsAppend(['a'] + [':'], ['b']);
    StripColonsAppend(['a'], [':']);
    StripColonsChar('a');
    StripColonsChar(':');
    StripColonsChar('b');
  }

  predicate IsLower(c: char) {
    'a' <= c <= 'z'
  }

  /** `str.upper()` on one character, for the ASCII letters a MAC address is written in. */
  function UpperChar(c: char): (u: char)
    ensures !IsLower(u)
    ensures !IsLower(c) ==> u == c
    ensures IsLower(c) ==> u == "ABCDEFGHIJKLMNOPQRSTUVWXYZ"[c as int - 'a' as int]
  {
    if IsLower(c) then (c as int - 'a' as int + 'A' as int) as char else c
  }

  function Upper(s: string): (u: string)
    ensures |u| == |s|
    ensures forall i :: 0 <= i < |s| ==> u[i] == UpperChar(s[i])
  {
    seq(|s|, i requires 0 <= i < |s| => UpperChar(s[i]))
  }

  /** Python's `s[:n]` and `s[n:]`, which clamp to the length of s. */
  function Head(s: string, n: nat): string {
    if n <= |s| then s[..n] else s
  }

  function Tail(s: string, n: nat): string {
    if n <= |s| then s[n..] else ""
  }

  /** Where the marker goes: after six characters, or after all of them when there are fewer. */
  function Cut(s: string): nat {
    if |s| < 6 then |s| else 6
  }

  /** `s[:6] + "FFFE" + s[6:]`, before upper-casing. */
  function Splice(s: string): (r: string)
    ensures |r| == |s| + 4
    ensures r[Cut(s)..Cut(s) + 4] == Marker
    ensures forall i :: 0 <= i < Cut(s) ==> r[i] == s[i]
    ensures forall i :: Cut(s) <= i < |s| ==> r[i + 4] == s[i]
  {
    var r := Head(s, 6) + Marker + Tail(s, 6);
    assert Head(s, 6) == s[..Cut(s)] && Tail(s, 6) == s[Cut(s)..];
    r
  }

  /** Upper-casing leaves the marker as it is. */
  lemma UpperKeepsMarker(r: string, at: nat)
    requires at + 4 <= |r| && r[at..at + 4] == Marker
    ensures Upper(r)[at..at + 4] == Marker
  {
    var u := Upper(r);
    forall j | 0 <= j < 4
      ensures u[at..at + 4][j] == Marker[j]
    {
      assert r[at + j] == r[at..at + 4][j] == Marker[j];
      assert !IsLower(Marker[j]);
    }
  }

  /** The bridge id for a MAC address. */
  function BridgeId(mac: string): (id: string)
    ensures var s := StripColons(mac);
      && |id| == |s| + 4
      && id[Cut(s)..Cut(s) + 4] == Marker
      && (forall i :: 0 <= i < Cut(s) ==> id[i] == UpperChar(s[i]))
      && (forall i :: Cut(s) <= i < |s| ==> id[i + 4] == UpperChar(s[i]))
    ensures ':' !in id
    ensures forall i :: 0 <= i < |id| ==> !IsLower(id[i])
  {
    var s := StripColons(mac);
    var raw := Splice(s);
    UpperKeepsMarker(raw, Cut(s));
    assert forall i :: 0 <= i < |raw| ==> raw[i] != ':' by {
      forall i | 0 <= i < |raw|
        ensures raw[i] != ':'
      {
        if i < Cut(s) {
          assert raw[i] == s[i];
        } else if i < Cut(s) + 4 {
          assert raw[i] == raw[Cut(s)..Cut(s) + 4][i - Cut(s)];
        } else {
          assert raw[i] == s[i - 4];
        }
      }
    }
    Upper(raw)
  }

  /** Cutting the marker back out of a bridge id gives the upper-cased MAC digits. */
  lemma BridgeIdMinusMarker(mac: string)
    ensures var s := StripColons(mac); var id := BridgeId(mac);
      id[..Cut(s)] + id[Cut(s) + 4..] == Upper(s)
  {
    var s := StripColons(mac);
    var id := BridgeId(mac);
    var cut := Cut(s);
    var rest := id[..cut] + id[cut + 4..];
    assert |rest| == |s|;
    forall i | 0 <= i < |s|
      ensures rest[i] == Upper(s)[i]
    {
      if i < cut {
        assert rest[i] == id[i];
      } else {
        assert rest[i] == id[i + 4];
      }
    }
  }

  /** Splicing and upper-casing commute: the id is the marker spliced into the upper-cased digits. */
  lemma BridgeIdSplicesUpper(mac: string)
    ensures BridgeId(mac) == Splice(Upper(StripColons(mac)))
  {
    var s := StripColons(mac);
    var id := BridgeId(mac);
    var u := Upper(s);
    var spliced := Splice(u);
    assert Cut(u) == Cut(s);
    var cut := Cut(s);
    forall i | 0 <= i < |id|
      ensures id[i] == spliced[i]
    {
      if i < cut {
        assert spliced[i] == u[i];
      } else if i < cut + 4 {
        assert id[i] == id[cut..cut + 4][i - cut];
        assert spliced[i] == spliced[cut..cut + 4][i - cut];
      } else {
        assert spliced[i] == u[i - 4];
      }
    }
  }

  /** Two MAC addresses with the same digits (up to case and separators) give the same id. */
  lemma BridgeIdIgnoresSeparators(mac1: string, mac2: string)
    requires Upper(StripColons(mac1)) == Upper(StripColons(mac2))
    ensures BridgeId(mac1) == BridgeId(mac2)
  {
    BridgeIdSplicesUpper(mac1);
    BridgeIdSplicesUpper(mac2);
  }
}

=== FILE: config_merge.dfy ===
/**
 * The config reconciliation of `load`: every persisted key/value pair is
 * written over the in-memory config. Keys that only the file has are kept.
 */
module ConfigMerge {
  import opened Values
  import opened SetFacts

  /** The config after the merge: the file wins on shared keys, nothing is removed. */
  function MergeConfig(config: Fields, persisted: Fields): (r: Fields)
    ensures r.Keys == config.Keys + persisted.Keys
    ensures forall k :: k in persisted ==> r[k] == persisted[k]
    ensures forall k :: k in config && k !in persisted ==> r[k] == config[k]
  {
    config + persisted
  }

  /** The merge written as the Python loop, one persisted key per step. */
  method MergeConfigLoop(config: Fields, persisted: Fields) returns (r: Fields)
    ensures r == MergeConfig(config, persisted)
  {
    r := config;
    var todo := persisted.Keys;
    while todo != {}
      invariant todo <= persisted.Keys
      invariant r.Keys == config.Keys + (persisted.Keys - todo)
      invariant forall k :: k in persisted.Keys - todo ==> r[k] == persisted[k]
      invariant forall k :: k in config && k !in persisted.Keys - todo ==> r[k] == config[k]
      decreases todo
    {
      NonEmptyHasElement(todo);
      var key :| key in todo;
      r := r[key := persisted[key]];
      todo := todo - {key};
    }
  }

  /** Loading the same file twice gives the same config as loading it once. */
  lemma MergeIdempotent(config: Fields, persisted: Fields)
    ensures MergeConfig(MergeConfig(config, persisted), persisted) == MergeConfig(config, persisted)
  {
  }

  /**
   * With defaults {a: 1, b: 2} and a file holding {b: 9, c: 3} the merged
   * config is {a: 1, b: 9, c: 3}: the file-only key c is kept.
   */
  lemma MergeKeepsFileOnlyKeys()
    ensures MergeConfig(map["a" := Num(1), "b" := Num(2)], map["b" := Num(9), "c" := Num(3)])
         == map["a" := Num(1), "b" := Num(9), "c" := Num(3)]
  {
  }
}

=== FILE: entities.dfy ===
/**
 * The registry's entities. The light, group, scene, sensor, alarm-config and
 * link-button classes live in files that are not part of this model; each is
 * represented here by the raw JSON it is built from, which is also what its
 * `serialize` gives back.
 */
module Entities {
  import opened Results
  import opened Values

  /** The `protocol` tag of a light address selects one of three light classes. */
  datatype Protocol = Yeelight | Hue | TPLink

  function Tag(p: Protocol): string {
    match p
    case Yeelight => "yeelight"
    case Hue => "hue"
    case TPLink => "tplink"
  }

  /** The branch of the load loop a persisted tag takes; None for an unknown tag. */
  function ProtocolOf(tag: Value): (r: Option<Protocol>)
    ensures r.Some? <==> tag == Str("yeelight") || tag == Str("hue") || tag == Str("tplink")
    ensures r.Some? ==> tag == Str(Tag(r.value))
  {
    if tag == Str("yeelight") then Some(Yeelight)
    else if tag == Str("hue") then Some(Hue)
    else if tag == Str("tplink") then Some(TPLink)
    else None
  }

  /** Every variant's tag selects that variant again. */
  lemma ProtocolTagRoundTrip(p: Protocol)
    ensures ProtocolOf(Str(Tag(p))) == Some(p)
  {
  }

  /**
   * A light of one of the three classes: its index, its address object
   * (protocol tag included) and its remaining fields, `state` among them.
   */
  datatype Light = Light(protocol: Protocol, index: string, address: Fields, fields: Fields)

  /** A group: its index and its fields, `action` and `state` among them. */
  datatype Group = Group(index: string, fields: Fields)

  datatype Scene = Scene(index: string, raw: Value)

  datatype Sensor = Sensor(raw: Value)

  /**
   * The registry: one field per attribute of the Python `Registry` object
   * except `filepath` and `_mac`. `alarmConfig` and `linkbutton` are None
   * while they still hold the plain `{}` that `__init__` assigns, which has
   * no `serialize` method; a load replaces each with its class instance.
   */
  datatype Registry = Registry(
    capabilities: Value,
    alarmConfig: Option<Value>,
    config: Fields,
    deconz: Value,
    groups: map<string, Group>,
    lights: map<string, Light>,
    linkbutton: Option<Value>,
    resourcelinks: Fields,
    rules: Fields,
    scenes: map<string, Scene>,
    schedules: Fields,
    sensors: map<string, Sensor>,
    newLights: Fields)

  /** A registry before anything is loaded: empty collections, a copy of the base config. */
  function Init(capabilities: Value, baseConfig: Fields): (r: Registry)
    ensures r.config == baseConfig && r.capabilities == capabilities
    ensures r.groups == map[] && r.lights == map[] && r.scenes == map[] && r.sensors == map[]
    ensures r.resourcelinks == map[] && r.rules == map[] && r.schedules == map[]
    ensures r.newLights == map[]
    ensures r.alarmConfig.None? && r.linkbutton.None? && r.deconz == Obj(map[])
  {
    Registry(capabilities, None, baseConfig, Obj(map[]), map[], map[], None,
             map[], map[], map[], map[], map[], map[])
  }
}

=== FILE: light_codec.dfy ===
/**
 * Lights on disk are split in two objects keyed by the same index:
 * `lights_address[i]` holds the address (with its protocol tag) and
 * `lights[i]` the remaining fields. `load` joins them back, choosing the
 * light class by the tag; `serialize` splits them.
 */
module LightCodec {
  import opened Results
  import opened Values
  import opened Entities
  import opened SetFacts

  /** The address object carries a tag that names one of the three light classes. */
  predicate HasKnownProtocol(rawAddress: Value) {
    rawAddress.Obj? && "protocol" in rawAddress.fields && ProtocolOf(rawAddress.fields["protocol"]).Some?
  }

  /**
   * One step of the load loop over `lights_address`: the new light, or None
   * when the tag is unknown and the entry is skipped. `rawLights` is the
   * document's `lights` value when it has one.
   */
  function DecodeLight(index: string, rawAddress: Value, rawLights: Option<Value>): (r: Result<Option<Light>>)
    ensures r.Err? <==>
      || !(rawLights.Some? && rawLights.value.Obj? && index in rawLights.value.fields)
      || !(rawAddress.Obj? && "protocol" in rawAddress.fields)
      || (HasKnownProtocol(rawAddress)
          && !(rawLights.value.fields[index].Obj? && "state" in rawLights.value.fields[index].fields))
    ensures r.Ok? ==> (r.value.Some? <==> HasKnownProtocol(rawAddress))
    ensures r.Ok? && r.value.Some? ==>
      && r.value.value.index == index
      && r.value.value.address == rawAddress.fields
      && ProtocolOf(rawAddress.fields["protocol"]) == Some(r.value.value.protocol)
      && r.value.value.fields == rawLights.value.fields[index].fields - {"address"}
  {
    if !(rawLights.Some? && rawLights.value.Obj? && index in rawLights.value.fields) then Err(DecodeError)
    else if !(rawAddress.Obj? && "protocol" in rawAddress.fields) then Err(DecodeError)
    else
      var light := rawLights.value.fields[index];
      match ProtocolOf(rawAddress.fields["protocol"])
      case None => Ok(None)
      case Some(p) =>
        if light.Obj? && "state" in light.fields then
          Ok(Some(Light(p, index, rawAddress.fields, light.fields - {"address"})))
        else Err(DecodeError)
  }

  /** Every entry of `addrs` among `done` decodes without error. */
  predicate AllDecode(addrs: Fields, done: set<string>, rawLights: Option<Value>)
    requires done <= addrs.Keys
  {
    forall i :: i in done ==> DecodeLight(i, addrs[i], rawLights).Ok?
  }

  /** The lights the entries among `done` reconstruct, by index. */
  function Decoded(addrs: Fields, done: set<string>, rawLights: Option<Value>): map<string, Light>
    requires done <= addrs.Keys && AllDecode(addrs, done, rawLights)
  {
    map i | i in done && DecodeLight(i, addrs[i], rawLights).value.Some? ::
      DecodeLight(i, addrs[i], rawLights).value.value
  }

  /**
   * The light loop of `load`, as a whole: fails when any entry fails,
   * otherwise overwrites `prior` at every index with a known tag.
   */
  function LoadLights(prior: map<string, Light>, addrs: Fields, rawLights: Option<Value>): (r: Result<map<string, Light>>)
    ensures r.Err? <==> exists i :: i in addrs && DecodeLight(i, addrs[i], rawLights).Err?
    ensures r.Ok? ==> r.value.Keys == prior.Keys + (set i | i in addrs && HasKnownProtocol(addrs[i]))
    ensures r.Ok? ==> forall i :: i in addrs && HasKnownProtocol(addrs[i]) ==>
      && r.value[i].index == i
      && r.value[i].address == addrs[i].fields
      && Some(r.value[i].protocol) == ProtocolOf(addrs[i].fields["protocol"])
      && r.value[i].fields == rawLights.value.fields[i].fields - {"address"}
    ensures r.Ok? ==> forall i :: i in prior && !(i in addrs && HasKnownProtocol(addrs[i])) ==>
      r.value[i] == prior[i]
  {
    if AllDecode(addrs, addrs.Keys, rawLights) then Ok(prior + Decoded(addrs, addrs.Keys, rawLights))
    else Err(DecodeError)
  }

  /** The light loop of `load` step by step, one `lights_address` entry at a time. */
  method ReconstructLights(prior: map<string, Light>, addrs: Fields, rawLights: Option<Value>)
    returns (r: Result<map<string, Light>>)
    ensures r == LoadLights(prior, addrs, rawLights)
  {
    var lights := prior;
    var todo := addrs.Keys;
    while todo != {}
      invariant todo <= addrs.Keys
      invariant AllDecode(addrs, addrs.Keys - todo, rawLights)
      invariant lights == prior + Decoded(addrs, addrs.Keys - todo, rawLights)
      decreases todo
    {
      NonEmptyHasElement(todo);
      var index :| index in todo;
      var decoded := DecodeLight(index, addrs[index], rawLights);
      if decoded.Err? {
        LoadLightsFails(prior, addrs, rawLights, index);
        return Err(DecodeError);
      }
      DecodedStep(addrs, addrs.Keys - todo, rawLights, index);
      assert addrs.Keys - (todo - {index}) == (addrs.Keys - todo) + {index};
      if decoded.value.Some? {
        UpdateOverUnion(prior, Decoded(addrs, addrs.Keys - todo, rawLights), index, decoded.value.value);
        lights := lights[index := decoded.value.value];
      }
      todo := todo - {index};
    }
    assert addrs.Keys - todo == addrs.Keys;
    LoadLightsSucceeds(prior, addrs, rawLights);
    return Ok(lights);
  }

  lemma UpdateOverUnion<V>(m: map<string, V>, d: map<string, V>, k: string, v: V)
    ensures (m + d)[k := v] == m + d[k := v]
  {
  }

  lemma LoadLightsFails(prior: map<string, Light>, addrs: Fields, rawLights: Option<Value>, index: string)
    requires index in addrs && DecodeLight(index, addrs[index], rawLights).Err?
    ensures LoadLights(prior, addrs, rawLights) == Err(DecodeError)
  {
  }

  lemma LoadLightsSucceeds(prior: map<string, Light>, addrs: Fields, rawLights: Option<Value>)
    requires AllDecode(addrs, addrs.Keys, rawLights)
    ensures LoadLights(prior, addrs, rawLights) == Ok(prior + Decoded(addrs, addrs.Keys, rawLights))
  {
  }

  /** Decoding one more entry adds its light, if any, to those already decoded. */
  lemma DecodedStep(addrs: Fields, done: set<string>, rawLights: Option<Value>, index: string)
    requires done <= addrs.Keys && AllDecode(addrs, done, rawLights)
    requires index in addrs && index !in done && DecodeLight(index, addrs[index], rawLights).Ok?
    ensures AllDecode(addrs, done + {index}, rawLights)
    ensures var d := DecodeLight(index, addrs[index], rawLights).value;
      Decoded(addrs, done + {index}, rawLights)
        == if d.Some? then Decoded(addrs, done, rawLights)[index := d.value] else Decoded(addrs, done, rawLights)
  {
  }

  /** What a light's own `serialize` gives: its fields with the address object under `address`. */
  function EncodeLight(l: Light): Fields {
    l.fields["address" := Obj(l.address)]
  }

  /**
   * The light part of `serialize`: the address of every light under
   * `lights_address[i]`, the rest under `lights[i]` with `address` removed.
   */
  function SerializeLights(lights: map<string, Light>): (r: (Fields, Fields))
    ensures r.0.Keys == lights.Keys && r.1.Keys == lights.Keys
    ensures forall i :: i in lights ==> r.0[i] == Obj(lights[i].address)
    ensures forall i :: i in lights ==> r.1[i].Obj? && "address" !in r.1[i].fields
    ensures forall i :: i in lights ==> r.1[i].fields == lights[i].fields - {"address"}
  {
    (map i | i in lights :: Obj(lights[i].address),
     map i | i in lights :: Obj(EncodeLight(lights[i]) - {"address"}))
  }

  /** The shape every reconstructed light has, and the one `serialize` needs to be undone. */
  predicate WellFormedLight(index: string, l: Light) {
    && l.index == index
    && "protocol" in l.address
    && l.address["protocol"] == Str(Tag(l.protocol))
    && "state" in l.fields
    && "address" !in l.fields
  }

  predicate WellFormedLights(lights: map<string, Light>) {
    forall i :: i in lights ==> WellFormedLight(i, lights[i])
  }

  /** Loading only ever adds well-formed lights. */
  lemma LoadLightsWellFormed(prior: map<string, Light>, addrs: Fields, rawLights: Option<Value>)
    requires WellFormedLights(prior)
    requires LoadLights(prior, addrs, rawLights).Ok?
    ensures WellFormedLights(LoadLights(prior, addrs, rawLights).value)
  {
    var r := LoadLights(prior, addrs, rawLights).value;
    forall i | i in r
      ensures WellFormedLight(i, r[i])
    {
      if i in addrs && HasKnownProtocol(addrs[i]) {
        var d := DecodeLight(i, addrs[i], rawLights);
        assert d.Ok? && d.value.Some?;
      }
    }
  }

  /**
   * Round trip: loading the two objects `serialize` writes for well-formed
   * lights reconstructs exactly those lights over whatever was there before.
   */
  lemma {:induction false} LightsRoundTrip(prior: map<string, Light>, lights: map<string, Light>)
    requires WellFormedLights(lights)
    ensures var split := SerializeLights(lights);
      LoadLights(prior, split.0, Some(Obj(split.1))) == Ok(prior + lights)
  {
    var split := SerializeLights(lights);
    SerializedLightsDecode(lights);
    LoadLightsSucceeds(prior, split.0, Some(Obj(split.1)));
  }

  /** Every entry `serialize` writes for well-formed lights decodes, and together they give the lights back. */
  lemma SerializedLightsDecode(lights: map<string, Light>)
    requires WellFormedLights(lights)
    ensures var split := SerializeLights(lights);
      && AllDecode(split.0, split.0.Keys, Some(Obj(split.1)))
      && Decoded(split.0, split.0.Keys, Some(Obj(split.1))) == lights
  {
    var split := SerializeLights(lights);
    var addrs, rawLights := split.0, Some(Obj(split.1));
    forall i | i in addrs
      ensures DecodeLight(i, addrs[i], rawLights) == Ok(Some(lights[i]))
    {
      SerializedLightDecodes(lights, i);
    }
    DecodedAll(addrs, rawLights, lights);
  }

  /** When every entry decodes to the light of its index, the decoded map is exactly those lights. */
  lemma DecodedAll(addrs: Fields, rawLights: Option<Value>, lights: map<string, Light>)
    requires addrs.Keys == lights.Keys
    requires forall i :: i in addrs ==> DecodeLight(i, addrs[i], rawLights) == Ok(Some(lights[i]))
    ensures AllDecode(addrs, addrs.Keys, rawLights)
    ensures Decoded(addrs, addrs.Keys, rawLights) == lights
  {
    var d := Decoded(addrs, addrs.Keys, rawLights);
    assert d.Keys == lights.Keys;
    assert forall i :: i in d ==> d[i] == lights[i];
  }

  /** The two halves `serialize` writes for one well-formed light decode back to it. */
  lemma SerializedLightDecodes(lights: map<string, Light>, i: string)
    requires i in lights && WellFormedLight(i, lights[i])
    ensures var split := SerializeLights(lights);
      DecodeLight(i, split.0[i], Some(Obj(split.1))) == Ok(Some(lights[i]))
  {
    var split := SerializeLights(lights);
    var l := lights[i];
    ProtocolTagRoundTrip(l.protocol);
    assert split.0[i] == Obj(l.address);
    assert HasKnownProtocol(split.0[i]);
    assert split.1[i].fields == l.fields - {"address"} == l.fields;
  }

  /** Dropping an entry with an unknown tag leaves every other entry decoding and the decoded lights unchanged. */
  lemma DropUnknownEntry(addrs: Fields, rawLights: Option<Value>, index: string)
    requires index in addrs && !HasKnownProtocol(addrs[index])
    requires AllDecode(addrs, addrs.Keys, rawLights)
    ensures AllDecode(addrs - {index}, (addrs - {index}).Keys, rawLights)
    ensures Decoded(addrs - {index}, (addrs - {index}).Keys, rawLights) == Decoded(addrs, addrs.Keys, rawLights)
  {
    var rest := addrs - {index};
    forall i | i in rest.Keys
      ensures DecodeLight(i, rest[i], rawLights).Ok?
    {
      assert rest[i] == addrs[i];
    }
  }

  /**
   * An entry with an unknown tag is skipped: the index it names gains no
   * light, and the result is the one the document without that entry gives.
   */
  lemma UnknownProtocolSkipped(prior: map<string, Light>, addrs: Fields, rawLights: Option<Value>, index: string)
    requires index in addrs && !HasKnownProtocol(addrs[index]) && index !in prior
    requires LoadLights(prior, addrs, rawLights).Ok?
    ensures index !in LoadLights(prior, addrs, rawLights).value
    ensures LoadLights(prior, addrs - {index}, rawLights) == LoadLights(prior, addrs, rawLights)
  {
    DropUnknownEntry(addrs, rawLights, index);
  }
}

=== FILE: numerals.dfy ===
/**
 * Decimal numerals as the registry uses them for collection keys: Python's
 * `int(key)` on the way in and `str(n)` on the way out.
 */
module Numerals {
  import opened Results

  predicate IsDigit(c: char) {
    '0' <= c <= '9'
  }

  predicate AllDigits(s: string) {
    forall i :: 0 <= i < |s| ==> IsDigit(s[i])
  }

  function DigitValue(c: char): (d: nat)
    requires IsDigit(c)
    ensures d < 10
  {
    (c as int) - ('0' as int)
  }

  function DigitChar(d: nat): (c: char)
    requires d < 10
    ensures IsDigit(c) && DigitValue(c) == d
  {
    ((('0' as int) + d) as char)
  }

  /** The value of a run of decimal digits, most significant first. */
  function ParseDigits(s: string): nat
    requires AllDigits(s)
    decreases |s|
  {
    if |s| == 0 then 0 else ParseDigits(s[..|s| - 1]) * 10 + DigitValue(s[|s| - 1])
  }

  /** `int(s)`: an optional sign followed by at least one decimal digit. */
  function ParseInt(s: string): (r: Option<int>)
    ensures r.Some? <==>
      (|s| > 0 && AllDigits(s)) || (|s| > 1 && (s[0] == '-' || s[0] == '+') && AllDigits(s[1..]))
    ensures r.Some? && |s| > 0 && IsDigit(s[0]) ==> r.value >= 0
  {
    if |s| > 0 && (s[0] == '-' || s[0] == '+') then
      var body := s[1..];
      if |body| > 0 && AllDigits(body) then
        Some(if s[0] == '-' then 0 - (ParseDigits(body) as int) else ParseDigits(body) as int)
      else None
    else if |s| > 0 && AllDigits(s) then Some(ParseDigits(s))
    else None
  }

  /** `str(n)` for a non-negative n: no sign, no leading zero. */
  function NatToString(n: nat): (s: string)
    ensures |s| > 0 && AllDigits(s)
    ensures s[0] == '0' ==> n == 0 && s == "0"
    decreases n
  {
    if n < 10 then [DigitChar(n)] else NatToString(n / 10) + [DigitChar(n % 10)]
  }

  /** `str(n)`: a leading minus sign for negative numbers. */
  function IntToString(n: int): (s: string)
    ensures |s| > 0
    ensures n >= 0 <==> IsDigit(s[0])
    ensures var d := if n < 0 then s[1..] else s;
      |d| > 0 && AllDigits(d) && (d[0] == '0' ==> d == "0")
  {
    if n < 0 then "-" + NatToString(-n) else NatToString(n)
  }

  lemma {:induction false} ParseNatToString(n: nat)
    ensures ParseDigits(NatToString(n)) == n
    decreases n
  {
    if n >= 10 {
      var s := NatToString(n);
      ParseNatToString(n / 10);
      assert s[..|s| - 1] == NatToString(n / 10);
    }
  }

  /** `int(str(n)) == n` for every integer. */
  lemma IntRoundTrip(n: int)
    ensures ParseInt(IntToString(n)) == Some(n)
  {
    var digits := NatToString(if n < 0 then -n else n);
    ParseNatToString(if n < 0 then -n else n);
    ParseIntDigits(digits);
    if n < 0 {
      assert IntToString(n) == "-" + digits;
      ParseIntMinus(digits);
    } else {
      assert IntToString(n) == digits;
    }
  }

  /** A run of digits with no sign reads as its digit value. */
  lemma ParseIntDigits(s: string)
    requires |s| > 0 && AllDigits(s)
    ensures ParseInt(s) == Some(ParseDigits(s) as int)
  {
    assert IsDigit(s[0]);
  }

  /** A leading zero adds nothing to the value of a digit run. */
  lemma {:induction false} ParseDigitsLeadingZero(s: string)
    requires AllDigits(s)
    ensures AllDigits("0" + s) && ParseDigits("0" + s) == ParseDigits(s)
    decreases |s|
  {
    var t := "0" + s;
    assert AllDigits(t) by {
      forall i | 0 <= i < |t|
        ensures IsDigit(t[i])
      {
        if i > 0 {
          assert t[i] == s[i - 1];
        }
      }
    }
    if |s| > 0 {
      var init := s[..|s| - 1];
      assert t[..|t| - 1] == "0" + init;
      assert t[|t| - 1] == s[|s| - 1];
      ParseDigitsLeadingZero(init);
    }
  }

  /** `int("0" + s) == int(s)`: keys with leading zeros read as the same number. */
  lemma ParseIntLeadingZero(s: string)
    requires |s| > 0 && AllDigits(s)
    ensures ParseInt("0" + s) == ParseInt(s)
  {
    ParseDigitsLeadingZero(s);
  }

  /** `int("+" + s) == int(s)` for a run of digits. */
  lemma ParseIntPlus(s: string)
    requires |s| > 0 && AllDigits(s)
    ensures ParseInt("+" + s) == ParseInt(s)
  {
    assert ("+" + s)[1..] == s;
  }

  /** `int("-" + s) == -int(s)` for a run of digits. */
  lemma ParseIntMinus(s: string)
    requires |s| > 0 && AllDigits(s)
    ensures ParseInt(s).Some? && ParseInt("-" + s) == Some(-ParseInt(s).value)
  {
    assert ("-" + s)[1..] == s;
  }

  /** Distinct integers have distinct decimal strings. */
  lemma IntToStringInjective(m: int, n: int)
    ensures IntToString(m) == IntToString(n) ==> m == n
  {
    IntRoundTrip(m);
    IntRoundTrip(n);
  }
}

=== FILE: persistence.dfy ===
/**
 * `save` and `backup`, over a file system modelled as a map from path to
 * the document stored there. JSON text encoding is not modelled: a file
 * holds the document itself.
 */
module Persistence {
  import opened Results
  import opened Values
  import opened Entities
  import opened RegistryCodec

  type FileSystem = map<string, Value>

  /**
   * `save(path)`: the file at `path` is overwritten with the serialized
   * registry. When `serialize` raises, no file is opened.
   */
  function Save(fs: FileSystem, path: string, reg: Registry): (r: Result<FileSystem>)
    ensures r.Ok? <==> Serialize(reg).Ok?
    ensures r.Err? ==> r.error == Serialize(reg).error
    ensures r.Ok? ==> r.value.Keys == fs.Keys + {path}
    ensures r.Ok? ==> r.value[path] == Serialize(reg).value
    ensures r.Ok? ==> forall p :: p in fs && p != path ==> r.value[p] == fs[p]
  {
    var doc :- Serialize(reg);
    Ok(fs[path := doc])
  }

  const BackupInfix: string := "-backup-"
  const BackupSuffix: string := ".json"

  /** The backup file name for the registry file `path` on the calendar day `date`. */
  function BackupPath(path: string, date: string): (r: string)
    ensures |r| == |path| + |BackupInfix| + |date| + |BackupSuffix|
    ensures r[..|path|] == path
    ensures r[|path|..|path| + |BackupInfix|] == BackupInfix
    ensures r[|path| + |BackupInfix|..|r| - |BackupSuffix|] == date
    ensures r[|r| - |BackupSuffix|..] == BackupSuffix
  {
    var r := path + BackupInfix + date + BackupSuffix;
    assert r[..|path|] == path;
    assert r[|path|..|path| + |BackupInfix|] == BackupInfix;
    assert r[|path| + |BackupInfix|..|r| - |BackupSuffix|] == date;
    r
  }

  /** `backup()`: a save to the dated backup name. */
  function Backup(fs: FileSystem, path: string, date: string, reg: Registry): (r: Result<FileSystem>)
    ensures r.Ok? <==> Serialize(reg).Ok?
    ensures r.Ok? ==> r.value.Keys == fs.Keys + {BackupPath(path, date)}
    ensures r.Ok? ==> r.value[BackupPath(path, date)] == Serialize(reg).value
    ensures r.Ok? ==> path in fs ==> path in r.value && r.value[path] == fs[path]
    ensures r.Ok? ==> forall p :: p in fs && p != BackupPath(path, date) ==> r.value[p] == fs[p]
  {
    Save(fs, BackupPath(path, date), reg)
  }

  /** Backups of the same file on different days get different names, and on the same day the same one. */
  lemma BackupPathInjective(path: string, d1: string, d2: string)
    ensures BackupPath(path, d1) == BackupPath(path, d2) <==> d1 == d2
  {
    if BackupPath(path, d1) == BackupPath(path, d2) {
      var b := BackupPath(path, d1);
      assert d1 == b[|path| + |BackupInfix|..|b| - |BackupSuffix|] == d2;
    }
  }

  /** Two backups on one day leave one backup file, holding the second one's content. */
  lemma SameDayBackupOverwrites(fs: FileSystem, path: string, date: string, first: Registry, second: Registry)
    ensures var once := Backup(fs, path, date, first);
      once.Ok? ==> Backup(once.value, path, date, second) == Backup(fs, path, date, second)
  {
    var name := BackupPath(path, date);
    if Backup(fs, path, date, first).Ok? && Serialize(second).Ok? {
      var doc := Serialize(second).value;
      assert Backup(fs, path, date, first).value[name := doc] == fs[name := doc];
    }
  }

  /** Backups on two different days are both kept. */
  lemma DifferentDayBackupsKept(fs: FileSystem, path: string, d1: string, d2: string, first: Registry, second: Registry)
    requires d1 != d2
    ensures var once := Backup(fs, path, d1, first);
      once.Ok? && Serializable(second) ==>
        var after := Backup(once.value, path, d2, second).value;
        after[BackupPath(path, d1)] == Serialize(first).value
        && after[BackupPath(path, d2)] == Serialize(second).value
  {
    BackupPathInjective(path, d1, d2);
  }

  /** The registry as `__init__` leaves it, before any load, cannot be saved: `serialize` raises. */
  lemma InitialRegistryCannotSave(fs: FileSystem, path: string, capabilities: Value, baseConfig: Fields)
    ensures Save(fs, path, Init(capabilities, baseConfig)) == Err(MissingMethod("alarm_config", "serialize"))
  {
    InitialRegistryNotSerializable(capabilities, baseConfig);
  }
}

=== FILE: registry_codec.dfy ===
/**
 * The registry's persisted document: `serialize` builds it, `load` reads it
 * back into an existing registry.
 */
module RegistryCodec {
  import opened Results
  import opened Values
  import opened Entities
  import opened ConfigMerge
  import opened LightCodec

  /** The top-level keys of every document `serialize` produces. */
  const DocumentKeys: set<string> := {"alarm_config", "capabilities", "config", "deconz", "groups",
    "lights", "lights_address", "linkbutton", "resourcelinks", "rules", "scenes", "schedules", "sensors"}

  /** The top-level keys `load` reads; `lights` only when `lights_address` has an entry. */
  const LoadedKeys: set<string> := {"alarm_config", "config", "deconz", "groups", "lights_address",
    "linkbutton", "scenes", "sensors"}

  /** The group loop of `load`: each group must be an object with `action` and `state`. */
  function DecodeGroups(rawGroups: Fields): (r: Result<map<string, Group>>)
    ensures r.Ok? <==> forall i :: i in rawGroups ==>
      rawGroups[i].Obj? && "action" in rawGroups[i].fields && "state" in rawGroups[i].fields
    ensures r.Ok? ==> r.value.Keys == rawGroups.Keys
    ensures r.Ok? ==> forall i :: i in rawGroups ==> r.value[i] == Group(i, rawGroups[i].fields)
  {
    if forall i :: i in rawGroups ==>
      rawGroups[i].Obj? && "action" in rawGroups[i].fields && "state" in rawGroups[i].fields
    then Ok(map i | i in rawGroups :: Group(i, rawGroups[i].fields))
    else Err(DecodeError)
  }

  /** The scene loop of `load`: every entry becomes a scene carrying its own index. */
  function DecodeScenes(rawScenes: Fields): (r: map<string, Scene>)
    ensures r.Keys == rawScenes.Keys
    ensures forall i :: i in r ==> r[i].index == i && r[i].raw == rawScenes[i]
  {
    map i | i in rawScenes :: Scene(i, rawScenes[i])
  }

  /** The sensor loop of `load`: every entry becomes a sensor. */
  function DecodeSensors(rawSensors: Fields): (r: map<string, Sensor>)
    ensures r.Keys == rawSensors.Keys
    ensures forall i :: i in r ==> r[i].raw == rawSensors[i]
  {
    map i | i in rawSensors :: Sensor(rawSensors[i])
  }

  /**
   * `load` of an existing file into `reg`: collections are merged into, not
   * replaced; `resourcelinks`, `rules`, `schedules` are not read.
   */
  function Load(reg: Registry, raw: Value): (r: Result<Registry>)
    ensures r.Ok? ==> raw.Obj? && LoadedKeys <= raw.fields.Keys
    ensures raw.Obj? && !(LoadedKeys <= raw.fields.Keys) ==> r.Err?
    ensures !raw.Obj? ==> r.Err?
    ensures r.Ok? <==>
      && raw.Obj? && LoadedKeys <= raw.fields.Keys
      && raw.fields["config"].Obj? && raw.fields["groups"].Obj? && raw.fields["lights_address"].Obj?
      && raw.fields["scenes"].Obj? && raw.fields["sensors"].Obj?
      && DecodeGroups(raw.fields["groups"].fields).Ok?
      && LoadLights(reg.lights, raw.fields["lights_address"].fields, Lookup(raw, "lights")).Ok?
    ensures r.Ok? ==> (
      && r.value.alarmConfig == Some(raw.fields["alarm_config"])
      && r.value.deconz == raw.fields["deconz"]
      && r.value.linkbutton == Some(raw.fields["linkbutton"]))
    ensures r.Ok? ==> r.value.config == MergeConfig(reg.config, raw.fields["config"].fields)
    ensures r.Ok? ==>
      r.value.groups == reg.groups + DecodeGroups(raw.fields["groups"].fields).value
    ensures r.Ok? ==>
      r.value.lights == LoadLights(reg.lights, raw.fields["lights_address"].fields, Lookup(raw, "lights")).value
    ensures r.Ok? ==> (
      && r.value.scenes == reg.scenes + DecodeScenes(raw.fields["scenes"].fields)
      && r.value.sensors == reg.sensors + DecodeSensors(raw.fields["sensors"].fields))
    ensures r.Ok? ==> (
      && r.value.capabilities == reg.capabilities && r.value.resourcelinks == reg.resourcelinks
      && r.value.rules == reg.rules && r.value.schedules == reg.schedules && r.value.newLights == reg.newLights)
  {
    var alarm :- Field(raw, "alarm_config");
    var persisted :- ObjectField(raw, "config");
    var deconz :- Field(raw, "deconz");
    var rawGroups :- ObjectField(raw, "groups");
    var groups :- DecodeGroups(rawGroups);
    var addrs :- ObjectField(raw, "lights_address");
    var lights :- LoadLights(reg.lights, addrs, Lookup(raw, "lights"));
    var linkbutton :- Field(raw, "linkbutton");
    var rawScenes :- ObjectField(raw, "scenes");
    var rawSensors :- ObjectField(raw, "sensors");
    Ok(reg.(alarmConfig := Some(alarm),
            config := MergeConfig(reg.config, persisted),
            deconz := deconz,
            groups := reg.groups + groups,
            lights := lights,
            linkbutton := Some(linkbutton),
            scenes := reg.scenes + DecodeScenes(rawScenes),
            sensors := reg.sensors + DecodeSensors(rawSensors)))
  }

  /** The document object, one argument per top-level key. */
  function Document(alarm: Value, capabilities: Value, config: Value, deconz: Value, groups: Value,
                    addrs: Value, lights: Value, linkbutton: Value, resourcelinks: Value, rules: Value,
                    scenes: Value, schedules: Value, sensors: Value): (r: Value)
    ensures r.Obj? && r.fields.Keys == DocumentKeys
    ensures r.fields["alarm_config"] == alarm && r.fields["capabilities"] == capabilities
    ensures r.fields["config"] == config && r.fields["deconz"] == deconz
    ensures r.fields["groups"] == groups && r.fields["lights_address"] == addrs
    ensures r.fields["lights"] == lights && r.fields["linkbutton"] == linkbutton
    ensures r.fields["resourcelinks"] == resourcelinks && r.fields["rules"] == rules
    ensures r.fields["scenes"] == scenes && r.fields["schedules"] == schedules
    ensures r.fields["sensors"] == sensors
  {
    Obj(map[
      "alarm_config" := alarm,
      "capabilities" := capabilities,
      "config" := config,
      "deconz" := deconz,
      "groups" := groups,
      "lights_address" := addrs,
      "lights" := lights,
      "linkbutton" := linkbutton,
      "resourcelinks" := resourcelinks,
      "rules" := rules,
      "scenes" := scenes,
      "schedules" := schedules,
      "sensors" := sensors])
  }

  /** The group loop of `serialize`: each group's fields as an object under its index. */
  function EncodeGroups(groups: map<string, Group>): (r: Fields)
    ensures r.Keys == groups.Keys
    ensures forall i :: i in groups ==> r[i].Obj? && r[i].fields == groups[i].fields
  {
    map i | i in groups :: Obj(groups[i].fields)
  }

  /** The scene loop of `serialize`: each scene's JSON under its index. */
  function EncodeScenes(scenes: map<string, Scene>): (r: Fields)
    ensures r.Keys == scenes.Keys
    ensures forall i :: i in scenes ==> r[i] == scenes[i].raw
  {
    map i | i in scenes :: scenes[i].raw
  }

  /** The sensor loop of `serialize`: each sensor's JSON under its index. */
  function EncodeSensors(sensors: map<string, Sensor>): (r: Fields)
    ensures r.Keys == sensors.Keys
    ensures forall i :: i in sensors ==> r[i] == sensors[i].raw
  {
    map i | i in sensors :: sensors[i].raw
  }

  /** Whether alarm config and link button have been replaced by objects that can serialize. */
  predicate Serializable(reg: Registry) {
    reg.alarmConfig.Some? && reg.linkbutton.Some?
  }

  /**
   * `serialize`: the whole registry as one document. It raises on the
   * alarm config first, then on the link button, while either still holds
   * the plain dict `__init__` assigned.
   */
  function Serialize(reg: Registry): (r: Result<Value>)
    ensures r.Ok? <==> Serializable(reg)
    ensures reg.alarmConfig.None? ==> r == Err(MissingMethod("alarm_config", "serialize"))
    ensures reg.alarmConfig.Some? && reg.linkbutton.None? ==> r == Err(MissingMethod("linkbutton", "serialize"))
    ensures r.Ok? ==> r.value.Obj? && r.value.fields.Keys == DocumentKeys
    ensures r.Ok? ==> r.value.fields["lights"].Obj? && r.value.fields["lights_address"].Obj?
    ensures r.Ok? ==>
      r.value.fields["lights"].fields.Keys == reg.lights.Keys == r.value.fields["lights_address"].fields.Keys
    ensures r.Ok? ==> forall i :: i in reg.lights ==>
      r.value.fields["lights"].fields[i].Obj? && "address" !in r.value.fields["lights"].fields[i].fields
  {
    if reg.alarmConfig.None? then Err(MissingMethod("alarm_config", "serialize"))
    else if reg.linkbutton.None? then Err(MissingMethod("linkbutton", "serialize"))
    else
      var split := SerializeLights(reg.lights);
      Ok(Document(reg.alarmConfig.value, reg.capabilities, Obj(reg.config), reg.deconz,
                  Obj(EncodeGroups(reg.groups)), Obj(split.0), Obj(split.1), reg.linkbutton.value,
                  Obj(reg.resourcelinks), Obj(reg.rules), Obj(EncodeScenes(reg.scenes)),
                  Obj(reg.schedules), Obj(EncodeSensors(reg.sensors))))
  }

  /** A registry fresh from `__init__` cannot be serialized, hence neither saved nor backed up. */
  lemma InitialRegistryNotSerializable(capabilities: Value, baseConfig: Fields)
    ensures Serialize(Init(capabilities, baseConfig)) == Err(MissingMethod("alarm_config", "serialize"))
  {
  }

  /** The shape of a registry that `load` can have produced, and that `serialize` can undo. */
  predicate WellFormed(reg: Registry) {
    && Serializable(reg)
    && WellFormedLights(reg.lights)
    && (forall i :: i in reg.groups ==>
          reg.groups[i].index == i && "action" in reg.groups[i].fields && "state" in reg.groups[i].fields)
    && (forall i :: i in reg.scenes ==> reg.scenes[i].index == i)
  }

  lemma GroupsRoundTrip(groups: map<string, Group>)
    requires forall i :: i in groups ==>
      groups[i].index == i && "action" in groups[i].fields && "state" in groups[i].fields
    ensures DecodeGroups(EncodeGroups(groups)) == Ok(groups)
  {
    var raw := EncodeGroups(groups);
    assert forall i :: i in raw ==> raw[i] == Obj(groups[i].fields);
    var r := DecodeGroups(raw);
    assert r.Ok?;
    assert forall i :: i in groups ==> r.value[i] == groups[i];
    assert r.value == groups;
  }

  /** A successful load of any document keeps a well-formed registry well-formed. */
  lemma LoadPreservesWellFormed(reg: Registry, raw: Value)
    requires WellFormed(reg) && Load(reg, raw).Ok?
    ensures WellFormed(Load(reg, raw).value)
  {
    var addrs := raw.fields["lights_address"].fields;
    LoadLightsWellFormed(reg.lights, addrs, Lookup(raw, "lights"));
  }

  /** Decoding the encoded scenes gives back every scene that carries its own index. */
  lemma ScenesRoundTrip(scenes: map<string, Scene>)
    requires forall i :: i in scenes ==> scenes[i].index == i
    ensures DecodeScenes(EncodeScenes(scenes)) == scenes
  {
    var r := DecodeScenes(EncodeScenes(scenes));
    assert forall i :: i in scenes ==> r[i] == scenes[i];
  }

  /** Decoding the encoded sensors gives back every sensor. */
  lemma SensorsRoundTrip(sensors: map<string, Sensor>)
    ensures DecodeSensors(EncodeSensors(sensors)) == sensors
  {
    var r := DecodeSensors(EncodeSensors(sensors));
    assert forall i :: i in sensors ==> r[i] == sensors[i];
  }

  /**
   * Loading what `serialize` wrote: every field it reads comes back, merged
   * over the target registry's own collections and config.
   */
  lemma {:induction false} LoadSerialize(prior: Registry, reg: Registry)
    requires WellFormed(reg)
    ensures Serialize(reg).Ok?
    ensures Load(prior, Serialize(reg).value) == Ok(prior.(
      alarmConfig := reg.alarmConfig,
      config := prior.config + reg.config,
      deconz := reg.deconz,
      groups := prior.groups + reg.groups,
      lights := prior.lights + reg.lights,
      linkbutton := reg.linkbutton,
      scenes := prior.scenes + reg.scenes,
      sensors := prior.sensors + reg.sensors))
  {
    var doc := Serialize(reg).value;
    var split := SerializeLights(reg.lights);
    SerializedParts(reg);
    assert Field(doc, "alarm_config") == Ok(reg.alarmConfig.value);
    assert ObjectField(doc, "config") == Ok(reg.config);
    assert Field(doc, "deconz") == Ok(reg.deconz);
    assert ObjectField(doc, "groups") == Ok(EncodeGroups(reg.groups));
    GroupsRoundTrip(reg.groups);
    assert ObjectField(doc, "lights_address") == Ok(split.0);
    assert Lookup(doc, "lights") == Some(Obj(split.1));
    LightsRoundTrip(prior.lights, reg.lights);
    assert Field(doc, "linkbutton") == Ok(reg.linkbutton.value);
    assert ObjectField(doc, "scenes") == Ok(EncodeScenes(reg.scenes));
    ScenesRoundTrip(reg.scenes);
    assert ObjectField(doc, "sensors") == Ok(EncodeSensors(reg.sensors));
    SensorsRoundTrip(reg.sensors);
  }

  /** Where `serialize` puts each part of the registry. */
  lemma SerializedParts(reg: Registry)
    requires Serializable(reg)
    ensures var doc := Serialize(reg).value; var split := SerializeLights(reg.lights);
      && doc.fields["alarm_config"] == reg.alarmConfig.value
      && doc.fields["capabilities"] == reg.capabilities
      && doc.fields["config"] == Obj(reg.config)
      && doc.fields["deconz"] == reg.deconz
      && doc.fields["groups"] == Obj(EncodeGroups(reg.groups))
      && doc.fields["lights_address"] == Obj(split.0)
      && doc.fields["lights"] == Obj(split.1)
      && doc.fields["linkbutton"] == reg.linkbutton.value
      && doc.fields["resourcelinks"] == Obj(reg.resourcelinks)
      && doc.fields["rules"] == Obj(reg.rules)
      && doc.fields["scenes"] == Obj(EncodeScenes(reg.scenes))
      && doc.fields["schedules"] == Obj(reg.schedules)
      && doc.fields["sensors"] == Obj(EncodeSensors(reg.sensors))
  {
  }

  /**
   * An empty registry loading the document of a well-formed registry gets
   * that registry back, provided the registry's config has every base key
   * and it holds nothing in the three collections `load` does not read.
   */
  lemma ReloadRestoresRegistry(reg: Registry, baseConfig: Fields)
    requires WellFormed(reg)
    requires baseConfig.Keys <= reg.config.Keys
    requires reg.resourcelinks == map[] && reg.rules == map[] && reg.schedules == map[]
    requires reg.newLights == map[]
    ensures Serialize(reg).Ok? && Load(Init(reg.capabilities, baseConfig), Serialize(reg).value) == Ok(reg)
  {
    var empty := Init(reg.capabilities, baseConfig);
    LoadSerialize(empty, reg);
    var loaded := empty.(
      alarmConfig := reg.alarmConfig,
      config := empty.config + reg.config,
      deconz := reg.deconz,
      groups := empty.groups + reg.groups,
      lights := empty.lights + reg.lights,
      linkbutton := reg.linkbutton,
      scenes := empty.scenes + reg.scenes,
      sensors := empty.sensors + reg.sensors);
    assert loaded.config == reg.config;
    UnionWithEmpty(reg.groups);
    UnionWithEmpty(reg.lights);
    UnionWithEmpty(reg.scenes);
    UnionWithEmpty(reg.sensors);
    assert loaded == reg;
  }

  lemma UnionWithEmpty<V>(m: map<string, V>)
    ensures map[] + m == m
  {
  }

  /**
   * Whatever `resourcelinks`, `rules` and `schedules` were saved with, and the
   * document does hold them, loading leaves the target's own values.
   */
  lemma ResourceLinksNotReloaded(prior: Registry, reg: Registry)
    requires WellFormed(reg)
    ensures Serialize(reg).Ok?
    ensures var doc := Serialize(reg).value;
      && doc.fields["resourcelinks"] == Obj(reg.resourcelinks)
      && doc.fields["rules"] == Obj(reg.rules)
      && doc.fields["schedules"] == Obj(reg.schedules)
    ensures Load(prior, Serialize(reg).value).Ok?
    ensures Load(prior, Serialize(reg).value).value.resourcelinks == prior.resourcelinks
    ensures Load(prior, Serialize(reg).value).value.rules == prior.rules
    ensures Load(prior, Serialize(reg).value).value.schedules == prior.schedules
  {
    SerializedParts(reg);
    LoadSerialize(prior, reg);
  }
}

=== FILE: results.dfy ===
/** Failure-compatible wrappers shared by the whole model. */
module Results {

  datatype Option<+T> = None | Some(value: T)

  /** The ways a registry operation can raise. */
  datatype Error =
    | BadElementType(element: string)   // next_free_id: the name is not a registry collection
    | InvalidIndex                      // next_free_id: a collection key is not a decimal integer
    | DecodeError                       // load: malformed document or a missing key
    | MissingMethod(owner: string, name: string)  // a method called on a value that lacks it

  datatype Result<+T> = Ok(value: T) | Err(error: Error) {

    predicate IsFailure() {
      Err?
    }

    function PropagateFailure<U>(): Result<U>
      requires Err?
    {
      Err(error)
    }

    function Extract(): T
      requires Ok?
    {
      value
    }
  }
}

=== FILE: sensors_state.dfy ===
/**
 * `generate_sensors_state`: for each sensor with a state that the
 * accumulator does not know yet, a snapshot holding a fixed timestamp for
 * each of the watched state keys the sensor has.
 */
module SensorsState {
  import opened Results
  import opened Values
  import opened Entities

  /** The state keys a snapshot reports. */
  const Watched: set<string> := {"lastupdated", "presence", "flag", "dark", "daylight", "status"}

  /** The timestamp every reported key is given. */
  const Placeholder: string := "2017-01-01T00:00:00"

  /**
   * The accumulator's keys. `registry.py` tests membership with the sensor's
   * index but inserts under the sensor object itself, which hashes by
   * identity: `SensorKey(i)` stands for the object registered under `i`.
   */
  datatype StateKey = IndexKey(index: string) | SensorKey(index: string)

  /** `hasattr(sensor, "state")`: the sensor's record has a `state` entry. */
  predicate HasState(s: Sensor) {
    s.raw.Obj? && "state" in s.raw.fields
  }

  /** The sensor's `state` attribute, when it is an object and so has `keys()`. */
  function SensorState(s: Sensor): (r: Option<Fields>)
    ensures r.Some? ==> HasState(s) && s.raw.fields["state"] == Obj(r.value)
    ensures HasState(s) && s.raw.fields["state"].Obj? ==> r.Some?
  {
    if HasState(s) && s.raw.fields["state"].Obj? then Some(s.raw.fields["state"].fields) else None
  }

  /** The snapshot of one sensor's state. */
  function Snapshot(state: Fields): (r: Value)
    ensures r.Obj? && r.fields.Keys == {"state"} && r.fields["state"].Obj?
    ensures r.fields["state"].fields.Keys == state.Keys * Watched
    ensures forall k :: k in r.fields["state"].fields ==> r.fields["state"].fields[k] == Str(Placeholder)
  {
    Obj(map["state" := Obj(map k | k in state.Keys && k in Watched :: Str(Placeholder))])
  }

  /** The sensors the loop snapshots: those with a state whose index is not a key yet. */
  predicate Pending(sensors: map<string, Sensor>, acc: map<StateKey, Value>, i: string) {
    i in sensors && IndexKey(i) !in acc && HasState(sensors[i])
  }

  /** Some sensor the loop reaches has a `state` that is not an object: `state.keys()` raises. */
  predicate Raises(sensors: map<string, Sensor>, acc: map<StateKey, Value>) {
    exists i :: i in sensors && Pending(sensors, acc, i) && SensorState(sensors[i]).None?
  }

  /** The snapshot of every sensor the loop reaches, by index, when none of them raises. */
  function PendingSnapshots(sensors: map<string, Sensor>, acc: map<StateKey, Value>): (m: map<string, Value>)
    requires !Raises(sensors, acc)
    ensures forall i :: i in m <==> Pending(sensors, acc, i)
    ensures forall i :: i in m ==> i in sensors && SensorState(sensors[i]).Some? && m[i] == Snapshot(SensorState(sensors[i]).value)
  {
    map i | i in sensors && Pending(sensors, acc, i) :: Snapshot(SensorState(sensors[i]).value)
  }

  /** `sensors_state[sensor] = snapshot` for every snapshot: keyed by the sensor object. */
  function UnderObjects(acc: map<StateKey, Value>, snaps: map<string, Value>): (r: map<StateKey, Value>)
    ensures r.Keys == acc.Keys + (set i | i in snaps :: SensorKey(i))
    ensures forall k :: k in acc && !(k.SensorKey? && k.index in snaps) ==> r[k] == acc[k]
    ensures forall i :: i in snaps ==> r[SensorKey(i)] == snaps[i]
    ensures forall i :: IndexKey(i) in r <==> IndexKey(i) in acc
  {
    acc + map i | i in snaps :: SensorKey(i) := snaps[i]
  }

  /** The same insertion keyed by the sensor's index. */
  function UnderIndices(acc: map<StateKey, Value>, snaps: map<string, Value>): (r: map<StateKey, Value>)
    ensures r.Keys == acc.Keys + (set i | i in snaps :: IndexKey(i))
    ensures forall k :: k in acc && !(k.IndexKey? && k.index in snaps) ==> r[k] == acc[k]
    ensures forall i :: i in snaps ==> r[IndexKey(i)] == snaps[i]
  {
    acc + map i | i in snaps :: IndexKey(i) := snaps[i]
  }

  /** The error `state.keys()` raises on a state that is not an object. */
  const StateKeysError: Error := MissingMethod("state", "keys")

  /**
   * `generate_sensors_state` as written: the guard looks the index up, the
   * snapshot goes under the sensor object. Entries under an index are never
   * touched; an entry under a pending sensor's object is overwritten.
   */
  function GenerateSensorsState(sensors: map<string, Sensor>, acc: map<StateKey, Value>)
    : (r: Result<map<StateKey, Value>>)
    ensures r.Err? <==> Raises(sensors, acc)
    ensures r.Err? ==> r.error == StateKeysError
    ensures r.Ok? ==>
      r.value.Keys == acc.Keys + (set i | i in sensors && Pending(sensors, acc, i) :: SensorKey(i))
    ensures r.Ok? ==> forall k :: k in acc && !(k.SensorKey? && Pending(sensors, acc, k.index)) ==>
      r.value[k] == acc[k]
    ensures r.Ok? ==> forall i :: Pending(sensors, acc, i) ==>
      SensorState(sensors[i]).Some? && r.value[SensorKey(i)] == Snapshot(SensorState(sensors[i]).value)
    ensures r.Ok? ==> forall i :: IndexKey(i) in r.value <==> IndexKey(i) in acc
  {
    if Raises(sensors, acc) then Err(StateKeysError)
    else
      var snaps := PendingSnapshots(sensors, acc);
      assert (set i | i in snaps :: SensorKey(i)) == (set i | i in sensors && Pending(sensors, acc, i) :: SensorKey(i));
      Ok(UnderObjects(acc, snaps))
  }

  /** A sensor whose `state` is a string makes the loop raise. */
  lemma NonObjectStateRaises()
    ensures GenerateSensorsState(map["1" := Sensor(Obj(map["state" := Str("on")]))], map[]) == Err(StateKeysError)
  {
    var sensors := map["1" := Sensor(Obj(map["state" := Str("on")]))];
    assert Pending(sensors, map[], "1") && SensorState(sensors["1"]).None?;
  }

  /** A sensor with a `presence` state. */
  const PresenceSensor: Sensor := Sensor(Obj(map["state" := Obj(map["presence" := Bool(true)])]))

  /**
   * With one sensor "1" that has a `presence` state, the result has no entry
   * for index "1", so the guard never recognises the sensor as done: a second
   * call overwrites whatever the caller stored under the sensor in between.
   */
  lemma SensorsStateKeyedByObject()
    ensures var sensors := map["1" := PresenceSensor];
      var first := GenerateSensorsState(sensors, map[]);
      && first.Ok?
      && IndexKey("1") !in first.value
      && SensorKey("1") in first.value
      && GenerateSensorsState(sensors, first.value[SensorKey("1") := Null]).Ok?
      && GenerateSensorsState(sensors, first.value[SensorKey("1") := Null]).value[SensorKey("1")] != Null
  {
    var sensors := map["1" := PresenceSensor];
    OnlyPresenceSensorPending(map[]);
    var first := GenerateSensorsState(sensors, map[]);
    assert first.Ok? && SensorKey("1") in first.value;
    var stored := first.value[SensorKey("1") := Null];
    OnlyPresenceSensorPending(stored);
    var second := GenerateSensorsState(sensors, stored);
    assert second.Ok?;
    assert second.value[SensorKey("1")] == Snapshot(SensorState(PresenceSensor).value);
  }

  /** Any accumulator without the index "1" leaves the presence sensor pending and the loop raising nothing. */
  lemma OnlyPresenceSensorPending(acc: map<StateKey, Value>)
    requires IndexKey("1") !in acc
    ensures Pending(map["1" := PresenceSensor], acc, "1")
    ensures !Raises(map["1" := PresenceSensor], acc)
  {
    var sensors := map["1" := PresenceSensor];
    assert SensorState(PresenceSensor).Some?;
    assert sensors.Keys == {"1"};
  }

  /** The evident intent: snapshots go under the index the guard tests. */
  function GenerateSensorsStateByIndex(sensors: map<string, Sensor>, acc: map<StateKey, Value>)
    : (r: Result<map<StateKey, Value>>)
    ensures r.Err? <==> Raises(sensors, acc)
    ensures r.Err? ==> r.error == StateKeysError
    ensures r.Ok? ==> r.value.Keys == acc.Keys + (set i | i in sensors && HasState(sensors[i]) :: IndexKey(i))
    ensures r.Ok? ==> forall i :: i in sensors && HasState(sensors[i]) ==> IndexKey(i) in r.value
    ensures r.Ok? ==> forall k :: k in acc ==> r.value[k] == acc[k]
    ensures r.Ok? ==> forall i :: Pending(sensors, acc, i) ==>
      SensorState(sensors[i]).Some? && r.value[IndexKey(i)] == Snapshot(SensorState(sensors[i]).value)
  {
    if Raises(sensors, acc) then Err(StateKeysError)
    else
      var snaps := PendingSnapshots(sensors, acc);
      Ok(UnderIndices(acc, snaps))
  }

  /** Once every sensor with a state is keyed by its index, the corrected loop changes nothing. */
  lemma ByIndexFixedPoint(sensors: map<string, Sensor>, acc: map<StateKey, Value>)
    requires forall i :: i in sensors && HasState(sensors[i]) ==> IndexKey(i) in acc
    ensures GenerateSensorsStateByIndex(sensors, acc) == Ok(acc)
  {
    assert forall i :: !Pending(sensors, acc, i);
    assert !Raises(sensors, acc);
    var snaps := PendingSnapshots(sensors, acc);
    assert snaps == map[];
    assert UnderIndices(acc, snaps) == acc;
  }

  /** Keyed by index, a second call finds every sensor done and changes nothing. */
  lemma SensorsStateByIndexIdempotent(sensors: map<string, Sensor>, acc: map<StateKey, Value>)
    ensures var once := GenerateSensorsStateByIndex(sensors, acc);
      once.Ok? ==> GenerateSensorsStateByIndex(sensors, once.value) == once
  {
    var once := GenerateSensorsStateByIndex(sensors, acc);
    if once.Ok? {
      ByIndexFixedPoint(sensors, once.value);
    }
  }
}

=== FILE: sets.dfy ===
/** Picking an element of a non-empty set, which the registry's loops over dict keys rely on. */
module SetFacts {

  lemma EmptyWhenNoElement<T>(s: set<T>)
    requires forall x :: x !in s
    ensures s == {}
  {
    assert forall x :: x in s <==> x in {};
  }

  lemma NonEmptyHasElement<T>(s: set<T>)
    requires s != {}
    ensures exists x :: x in s
  {
    if forall x :: x !in s {
      EmptyWhenNoElement(s);
      assert false;
    }
  }
}

=== FILE: staging.dfy ===
/**
 * The staging map of newly discovered lights: one `{name}` object per
 * light index plus the `lastscan` timestamp, all in one map.
 */
module Staging {
  import opened Values
  import opened Entities

  const LastScan: string := "lastscan"

  /** `add_new_light`: record the light under its index, then stamp `lastscan` with `now`. */
  function AddNewLight(reg: Registry, index: string, name: string, now: string): (r: Registry)
    ensures r.newLights.Keys == reg.newLights.Keys + {index, LastScan}
    ensures forall k :: k in reg.newLights && k != index && k != LastScan ==> r.newLights[k] == reg.newLights[k]
    ensures index != LastScan ==> r.newLights[index] == Obj(map["name" := Str(name)])
    ensures r.newLights[LastScan] == Str(now)
    ensures r.(newLights := reg.newLights) == reg
  {
    reg.(newLights := reg.newLights[index := Obj(map["name" := Str(name)])][LastScan := Str(now)])
  }

  /** `get_new_lights`. */
  function GetNewLights(reg: Registry): Fields {
    reg.newLights
  }

  /** `clear_new_lights`: the staging map is emptied, nothing else changes. */
  function ClearNewLights(reg: Registry): (r: Registry)
    ensures GetNewLights(r) == map[]
    ensures r.(newLights := reg.newLights) == reg
  {
    reg.(newLights := map[])
  }

  /**
   * Two discoveries of different lights leave both in the staging map, and
   * `lastscan` holds the second discovery's time.
   */
  lemma TwoDiscoveriesAccumulate(reg: Registry, i1: string, n1: string, t1: string,
                                 i2: string, n2: string, t2: string)
    requires i1 != i2 && i1 != LastScan && i2 != LastScan
    ensures var staged := GetNewLights(AddNewLight(AddNewLight(reg, i1, n1, t1), i2, n2, t2));
      && staged[i1] == Obj(map["name" := Str(n1)])
      && staged[i2] == Obj(map["name" := Str(n2)])
      && staged[LastScan] == Str(t2)
      && staged.Keys == reg.newLights.Keys + {i1, i2, LastScan}
  {
  }

  /** After a clear, a discovery stages exactly that light and the scan time. */
  lemma ClearThenAdd(reg: Registry, index: string, name: string, now: string)
    requires index != LastScan
    ensures GetNewLights(AddNewLight(ClearNewLights(reg), index, name, now))
         == map[index := Obj(map["name" := Str(name)]), LastScan := Str(now)]
  {
  }
}

=== FILE: startup.dfy ===
/**
 * `_startup` and `set_filepath`. The network interface, timezone and clock
 * readings `registry.py` takes from the host are parameters here.
 */
module Startup {
  import opened Results
  import opened Values
  import opened Entities
  import opened BridgeIds
  import opened RegistryCodec

  /** What the host's default interface reports. */
  datatype NetworkInfo = NetworkInfo(ipaddress: string, netmask: string, gateway: string, mac: string)

  /** The config keys `_startup` writes. */
  const StartupKeys: set<string> := {"ipaddress", "netmask", "gateway", "mac", "bridgeid", "timezone", "localtime", "UTC"}

  /** `_startup`: network, bridge id, timezone and clock entries written over the config. */
  function RunStartup(reg: Registry, net: NetworkInfo, timezone: string, localtime: string, utc: string): (r: Registry)
    ensures r.config.Keys == reg.config.Keys + StartupKeys
    ensures "bridgeid" in r.config && r.config["bridgeid"] == Str(BridgeId(net.mac))
    ensures r.config["mac"] == Str(net.mac) && r.config["ipaddress"] == Str(net.ipaddress)
    ensures r.config["netmask"] == Str(net.netmask) && r.config["gateway"] == Str(net.gateway)
    ensures r.config["timezone"] == Str(timezone)
    ensures r.config["localtime"] == Str(localtime) && r.config["UTC"] == Str(utc)
    ensures forall k :: k in reg.config && k !in StartupKeys ==> r.config[k] == reg.config[k]
    ensures r.(config := reg.config) == reg
  {
    reg.(config := reg.config[
      "ipaddress" := Str(net.ipaddress)][
      "netmask" := Str(net.netmask)][
      "gateway" := Str(net.gateway)][
      "mac" := Str(net.mac)][
      "bridgeid" := Str(BridgeId(net.mac))][
      "timezone" := Str(timezone)][
      "localtime" := Str(localtime)][
      "UTC" := Str(utc)])
  }

  /** `set_filepath` on an existing file: `load`, then `_startup`. */
  function SetFilepath(reg: Registry, raw: Value, net: NetworkInfo, timezone: string,
                       localtime: string, utc: string): (r: Result<Registry>)
    ensures r.Ok? <==> Load(reg, raw).Ok?
    ensures r.Ok? ==> r.value == RunStartup(Load(reg, raw).value, net, timezone, localtime, utc)
    ensures r.Ok? ==> (
      && r.value.lights == Load(reg, raw).value.lights
      && "bridgeid" in r.value.config
      && r.value.config["bridgeid"] == Str(BridgeId(net.mac)))
  {
    var loaded :- Load(reg, raw);
    Ok(RunStartup(loaded, net, timezone, localtime, utc))
  }

  /** A bridge id persisted in the file never survives startup: it is recomputed from the MAC. */
  lemma StartupOverridesPersistedBridgeId(reg: Registry, raw: Value, net: NetworkInfo, timezone: string,
                                          localtime: string, utc: string)
    requires Load(reg, raw).Ok?
    ensures var r := SetFilepath(reg, raw, net, timezone, localtime, utc).value;
      r.config["bridgeid"] == Str(BridgeId(net.mac))
      && forall k :: k in raw.fields["config"].fields && k !in StartupKeys ==>
           r.config[k] == raw.fields["config"].fields[k]
  {
  }
}

=== FILE: values.dfy ===
/** The JSON values a registry file is made of, and the lookups `load` performs on them. */
module Values {
  import opened Results

  datatype Value =
    | Null
    | Bool(b: bool)
    | Num(n: int)
    | Str(s: string)
    | Arr(items: seq<Value>)
    | Obj(fields: map<string, Value>)

  /** A JSON object: the shape of every dict the registry reads or writes. */
  type Fields = map<string, Value>

  /** `raw[key]`: raises unless `raw` is an object holding `key`. */
  function Field(raw: Value, key: string): (r: Result<Value>)
    ensures r.Ok? <==> raw.Obj? && key in raw.fields
    ensures r.Ok? ==> r.value == raw.fields[key]
  {
    if raw.Obj? && key in raw.fields then Ok(raw.fields[key]) else Err(DecodeError)
  }

  /** `raw[key].items()`: as `Field`, and the value must itself be an object. */
  function ObjectField(raw: Value, key: string): (r: Result<Fields>)
    ensures r.Ok? <==> raw.Obj? && key in raw.fields && raw.fields[key].Obj?
    ensures r.Ok? ==> Obj(r.value) == raw.fields[key]
  {
    if raw.Obj? && key in raw.fields && raw.fields[key].Obj? then Ok(raw.fields[key].fields)
    else Err(DecodeError)
  }

  /** The value under `key` when present, for lookups `load` performs lazily. */
  function Lookup(raw: Value, key: string): (r: Option<Value>)
    ensures r.Some? <==> raw.Obj? && key in raw.fields
    ensures r.Some? ==> r.value == raw.fields[key]
  {
    if raw.Obj? && key in raw.fields then Some(raw.fields[key]) else None
  }
}
